=== FILE: README.md ===
# Navigation controller of a wedding site, in Dafny

This project models the behaviour of the responsive navigation bar of a
single-page React site (`src/components/NavBar/`). The rest of that code base is
static markup. The model covers:

- **The scroll-reactive header** (`NavBar.tsx`). Each scroll-handler run computes three things.
  - `isScrolled` is true when the offset is strictly above 50.
  - The direction comes from comparing the new offset with the stored one.
  - Visibility is recomputed only when the step is more than 10 pixels. The header is then shown iff it
    went up or the offset is below 100.
- **The animation-frame throttle.** Within one registration of the scroll listener, a `ticking` flag
  lets at most one frame callback be pending at a time.
- **The mobile-menu open flag and body lock.** `document.body.style.overflow` mirrors the flag, and it
  is released on close and on unmount.
- **The navigation list.** There are six entries, and `isActive` is derived from the current page.
- **The anchor lookup behind `handleNavItemClick`.** The first `#` is stripped, the element is looked
  up, and the page scrolls to its offset minus 80.
- **The header's class list.** The state classes are filtered to drop the empty ones.
- **The mobile menu** (`MobileMenu.tsx`). This covers:
  - the keydown handler: Escape, and the Tab / Shift+Tab focus trap;
  - the swipe-to-close handlers;
  - item selection ("navigate, then close");
  - backdrop-click filtering;
  - the rule that a closed menu renders nothing and listens to nothing.
- **A single desktop link** (`NavItem.tsx`). A click, or an Enter or Space keypress, suppresses the
  default and reports the href. Any other key does nothing. The `active` flag alone drives the style
  and `aria-current`.

Every handler is a pure function over immutable records. Event sequences are folds over those
functions. The `NavBar` module puts all the pieces into one controller with one step per browser
event.

Some assumptions stand in for the environment:

- Scroll offsets and touch coordinates are `int`. The source only compares and subtracts them.
- The document is a parameter: a map from element id to `offsetTop`.
- Focus is the index of the focused element among the menu's focusable elements, in document order.
  These are the close button followed by one link per entry. When the handler does not suppress Tab,
  the browser's default is taken to move focus to the adjacent element in that order.

## Model

| member | source | states |
|---|---|---|
| ScrollHeader.HandleScroll | src/components/NavBar/NavBar.tsx:29-44 | the stored offset is always the new one; scrolled iff the offset is above 50; direction is down iff the offset exceeds the previous one (equal counts as up); within 10 pixels visibility is unchanged, beyond it the header is shown iff it moved up or the offset is below 100 |
| ScrollHeader.Boundaries | src/components/NavBar/NavBar.tsx:31-36 | 50 is not scrolled and 51 is; an unchanged offset is "up"; steps of exactly 10 either way keep visibility; a step of 11 down to 100 or more hides, a step of 11 up shows |
| ScrollHeader.Run | src/components/NavBar/NavBar.tsx:39-43 | after any non-empty run the stored offset is the last offset and the scrolled flag depends on the last offset alone |
| ScrollHeader.RunVisibilityAt | src/components/NavBar/NavBar.tsx:32-37 | after a run, visibility is decided by the last step that left the dead zone: shown iff that step went up or ended below 100 |
| ScrollHeader.RunVisibilityQuiet | src/components/NavBar/NavBar.tsx:35-37 | a run in which no step leaves the dead zone keeps the starting visibility |
| ScrollHeader.ClimbHides | src/components/NavBar/NavBar.tsx:32-36 | scrolling down by more than 10 at every step ends with direction down and the header shown iff the final offset is below 100 |
| ScrollHeader.ReversalShows | src/components/NavBar/NavBar.tsx:32-36 | a final step up by more than 10 shows the header at any offset |
| ScrollHeader.CreepKeepsVisibility | src/components/NavBar/NavBar.tsx:35-42 | since the offset is stored even inside the dead zone, n downward steps of 10 move the page 10n pixels, an unbounded distance, and leave visibility unchanged |
| FrameThrottle.OnScroll | src/components/NavBar/NavBar.tsx:50-58 | a scroll event while a frame is pending changes nothing; otherwise exactly one callback is queued and the flag set |
| FrameThrottle.OnFrame | src/components/NavBar/NavBar.tsx:52-55 | a frame with one pending callback runs the handler once on the offset read at frame time and clears the flag; with none pending it changes nothing |
| FrameThrottle.ReplayCoalesces | src/components/NavBar/NavBar.tsx:47-58 | over any event sequence at most one callback is pending, the flag says whether one is, and handler runs never exceed frames nor scroll events |
| FrameThrottle.BurstQueuesOne | src/components/NavBar/NavBar.tsx:50-57 | any non-empty burst of scroll events leaves exactly one callback pending, also when one was already pending at its start |
| FrameThrottle.BurstRunsOnce | src/components/NavBar/NavBar.tsx:50-57 | a burst of scroll events followed by one frame runs the handler exactly once |
| MenuLock.Mount | src/components/NavBar/NavBar.tsx:73-83 | the menu starts closed (its state defaults to false at line 9) and the mount-time run of the effect writes 'unset' |
| MenuLock.SetOpen | src/components/NavBar/NavBar.tsx:73-83 | a change of the flag leaves the body 'hidden' iff the new flag is open; an unchanged flag re-runs no effect |
| MenuLock.ToggleMenu | src/components/NavBar/NavBar.tsx:85-87 | toggling negates the flag and keeps the lock in step with it |
| MenuLock.CloseMenu | src/components/NavBar/NavBar.tsx:89-91 | closing leaves the flag false and the body 'unset' |
| MenuLock.UnmountLock | src/components/NavBar/NavBar.tsx:80-82 | the cleanup on unmount releases the lock whatever the flag |
| MenuLock.LockMirrorsMenu | src/components/NavBar/NavBar.tsx:73-91 | over any sequence of toggles, closes and unmount, the body is 'hidden' exactly while the mounted menu is open |
| MenuLock.ToggleTwice | src/components/NavBar/NavBar.tsx:85-87 | toggling twice restores flag and lock |
| MenuLock.CloseIdempotent | src/components/NavBar/NavBar.tsx:89-91 | closing twice is closing once |
| NavList.NavItems | src/components/NavBar/NavBar.tsx:19-26 | six entries with the section ids in order, href '#' plus id, a flag always present and true iff the id is the current page |
| NavList.SectionIdsDistinct | src/components/NavBar/NavBar.tsx:19-26 | the six section ids are non-empty and pairwise distinct |
| NavList.NavItemsDistinct | src/components/NavBar/NavBar.tsx:19-26 | the ids of the built list are pairwise distinct and are exactly the section ids |
| NavList.CountMatching | src/components/NavBar/NavBar.tsx:19-26 | in any list with distinct ids flagged by "id equals current page", the number of active entries is 1 if the page is an id and 0 otherwise |
| NavList.ActiveEntries | src/components/NavBar/NavBar.tsx:19-26 | at most one entry is active, and exactly one when the page is a section id, none otherwise |
| NavList.HomeActivatesNone | src/components/NavBar/NavBar.tsx:8 | the default page '' and the 'home' page the site passes make no entry active |
| NavList.RemoveFirstHash | src/components/NavBar/NavBar.tsx:95 | `href.replace('#', '')` with a string pattern: one character shorter exactly when the string holds a '#', and unchanged when it holds none |
| NavList.FirstHashSpec | src/components/NavBar/NavBar.tsx:95 | the index found holds a '#' unless it is the length, and no '#' occurs before it |
| NavList.RemoveFirstHashSplits | src/components/NavBar/NavBar.tsx:95 | the string is unchanged when it holds no '#'; otherwise exactly the first '#' is cut out and everything around it kept |
| NavList.FirstHashAbsent | src/components/NavBar/NavBar.tsx:95 | the first-'#' index equals the length exactly when the string holds no '#' |
| NavList.AnchorRoundTrip | src/components/NavBar/NavBar.tsx:95 | stripping '#' plus an id gives the id back |
| NavList.GetElementById | src/components/NavBar/NavBar.tsx:96 | an element is found iff the id is non-empty and present in the document, and its offsetTop is the one recorded for that id |
| NavList.ScrollTarget | src/components/NavBar/NavBar.tsx:93-105 | no scroll iff no element has the stripped id; otherwise the target is that element's offset minus 80 |
| NavList.EntryTargetsItsSection | src/components/NavBar/NavBar.tsx:93-105 | every entry's href scrolls to its own section's offset minus 80, or nowhere if the section is absent |
| NavList.KeepNonEmpty | src/components/NavBar/NavBar.tsx:107-113 | the filter keeps exactly the non-empty strings, a non-empty first string stays first, and a list with no empty string is returned unchanged, in order |
| NavList.NavBarClasses | src/components/NavBar/NavBar.tsx:107-113 | the header's class list before the join: the base class first, at most five classes, none empty |
| NavList.ClassesReflectState | src/components/NavBar/NavBar.tsx:107-113 | the base class is always present; each state class is present iff its state holds or the caller's class has that name; no empty class |
| FocusTrap.HandleKeyDown | src/components/NavBar/MobileMenu.tsx:26-48 | close is requested iff the key is Escape; focus moves (and the default is suppressed) only for Tab on the last element, to the first, or Shift+Tab on the first, to the last |
| FocusTrap.FocusAfterTab | src/components/NavBar/MobileMenu.tsx:40-46 | with the browser's default move, Tab goes to the cyclic successor and Shift+Tab to the cyclic predecessor |
| FocusTrap.TabPressesCompose | src/components/NavBar/MobileMenu.tsx:40-46 | a + b Tab presses equal a presses followed by b presses |
| FocusTrap.TabPressesAdvance | src/components/NavBar/MobileMenu.tsx:40-46 | below the last element k presses advance focus by k |
| FocusTrap.FullCycle | src/components/NavBar/MobileMenu.tsx:40-46 | n Tab presses from any of n elements return focus to it |
| FocusTrap.Wraps | src/components/NavBar/MobileMenu.tsx:40-46 | Shift+Tab on the first goes to the last, Tab on the last to the first; with one element both stay on it |
| FocusTrap.TabInverse | src/components/NavBar/MobileMenu.tsx:40-46 | Shift+Tab undoes Tab and Tab undoes Shift+Tab |
| FocusTrap.EscapeIndependent | src/components/NavBar/MobileMenu.tsx:27-29 | Escape always requests close and never suppresses the default or moves focus |
| SwipeGesture.OnTouch | src/components/NavBar/MobileMenu.tsx:61-74 | only touchstart changes startX, only touchmove changes currentX, only touchend can close, and it closes iff currentX exceeds startX by more than 100 |
| SwipeGesture.ReplayTracksLastMove | src/components/NavBar/MobileMenu.tsx:58-66 | currentX is the coordinate of the last touchmove, or its starting value if there was none |
| SwipeGesture.ReplayTracksLastStart | src/components/NavBar/MobileMenu.tsx:58-63 | startX is the coordinate of the last touchstart, or its starting value if there was none |
| SwipeGesture.MovelessGestureReusesCurrentX | src/components/NavBar/MobileMenu.tsx:58-74 | a gesture without a move closes iff the stale currentX lies more than 100 right of the new start |
| SwipeGesture.FirstTapNeverCloses | src/components/NavBar/MobileMenu.tsx:58-74 | on fresh listeners a move-less gesture starting at a non-negative coordinate does not close |
| SwipeGesture.CloseBoundary | src/components/NavBar/MobileMenu.tsx:69-74 | a net movement of exactly 100 does not close, 101 does |
| SwipeGesture.TapAfterShortSwipeCloses | src/components/NavBar/MobileMenu.tsx:58-74 | after a non-closing swipe from 300 to 350, a tap at 200 with no move closes the menu |
| MobileMenu.SelectItem | src/components/NavBar/MobileMenu.tsx:92-97 | navigation to the href is requested first, once and only if a handler was given, and close always last |
| MobileMenu.OverlayClick | src/components/NavBar/MobileMenu.tsx:99-103 | a click closes iff its target is the backdrop itself |
| MobileMenu.KeyEvent | src/components/NavBar/MobileMenu.tsx:26-48 | a keydown on the open menu requests close exactly for Escape, and suppresses the default and moves focus exactly as the focus trap over the panel's elements does: Tab on the last to the first, Shift+Tab on the first to the last |
| MobileMenu.TouchEvent | src/components/NavBar/MobileMenu.tsx:58-74 | a touch updates the swipe coordinates exactly as the swipe handlers do, requests close exactly for a touchend after a net rightward movement above 100, and never suppresses the default |
| MobileMenu.ClickEvent | src/components/NavBar/MobileMenu.tsx:92-130 | a link click yields the item-selection intents; the close button and the backdrop close; a click elsewhere in the panel does nothing, the bubbled backdrop handler adding nothing |
| MobileMenu.Dispatch | src/components/NavBar/MobileMenu.tsx:24-105 | a closed menu does nothing; an open one requests close iff the event is Escape, a touchend after a swipe above 100, the backdrop, the close button or a link; navigation only from a link, with its href, and close is always the last intent; touches update the swipe state as the swipe handlers do and keydowns move focus as the focus trap does |
| MobileMenu.LinkNavigatesThenCloses | src/components/NavBar/MobileMenu.tsx:143-146 | a link click suppresses the default and yields exactly navigate-then-close (or close alone without a handler) |
| MobileMenu.FocusOnOpen | src/components/NavBar/MobileMenu.tsx:15-20 | opening focuses an element iff there are entries, and it is the first link, after the close button |
| MobileMenu.LinkAriaCurrent | src/components/NavBar/MobileMenu.tsx:147 | a menu link is marked current iff the optional current page equals its id |
| NavItemEvents.OnClick | src/components/NavBar/NavItem.tsx:6-11 | a click always suppresses the default and calls the callback exactly once with the item's href if one was given, else not at all |
| NavItemEvents.OnKeyDown | src/components/NavBar/NavItem.tsx:13-20 | Enter and Space behave exactly as a click; any other key neither suppresses the default nor calls back |
| NavItemEvents.AriaCurrent | src/components/NavBar/NavItem.tsx:26-31 | 'page' is present iff the item's flag is present and true |
| NavItemEvents.UndefinedIsInactive | src/components/NavBar/types.ts:3-8 | an entry without a flag is rendered inactive |
| NavBar.Perform | src/components/NavBar/NavBar.tsx:89-105 | intents are carried out in call order through `handleNavItemClick` and `closeMobileMenu`; they change nothing but the menu lock and the scroll request, and without a close request not even the lock |
| NavBar.PerformEffects | src/components/NavBar/NavBar.tsx:89-105 | carrying out intents changes only the lock and scroll request and keeps the lock mirroring the flag; when a close was requested a mounted menu ends closed and unlocked, and otherwise the lock is untouched |
| NavBar.PerformNavigate | src/components/NavBar/NavBar.tsx:93-105 | a navigation intent yields the lookup's scroll target; navigate-then-close additionally closes |
| NavBar.DocumentKeyDown | src/components/NavBar/MobileMenu.tsx:26-51 | a keydown outside the panel reaches the open menu's document listener: close is requested iff the mounted menu is open and the key is Escape, and focus and the default are left alone |
| NavBar.Step | src/components/NavBar/NavBar.tsx:47-166 | one browser event delivered to the listeners the source registers for it; once unmounted nothing reacts (the routing itself is stated by StepRoutes) |
| NavBar.StepRoutes | src/components/NavBar/NavBar.tsx:47-62 | while mounted, scroll events and frames change only the throttle, as its handlers do; with the menu open, a touch updates the swipe state as the swipe handlers do and a panel keydown suppresses the default and moves focus as the focus trap over seven elements does |
| NavBar.StepPreservesValid | src/components/NavBar/NavBar.tsx:47-91 | every event keeps at most one frame pending and the body lock equal to "mounted and open" |
| NavBar.ReplayValid | src/components/NavBar/NavBar.tsx:47-91 | from mount, over any event sequence, the same two invariants hold |
| NavBar.CloseTriggersUnlock | src/components/NavBar/NavBar.tsx:73-91 | with the menu open, Escape, swipe, backdrop, close button and link each close and unlock; every other menu event leaves flag and lock alone |
| NavBar.MenuTabWraps | src/components/NavBar/MobileMenu.tsx:40-46 | in the open menu Tab on the last link focuses the close button and Shift+Tab on the close button focuses the last link, each suppressing the default and changing no state |
| NavBar.MenuSwipeCloses | src/components/NavBar/MobileMenu.tsx:58-74 | touchstart at a, touchmove to b and touchend on the open menu close it and release the lock iff b - a > 100, and leave the lock alone otherwise |
| NavBar.UnmountReleases | src/components/NavBar/NavBar.tsx:80-82 | unmounting releases the lock even with the menu open, and nothing reacts afterwards |
| NavBar.ClosedMenuInert | src/components/NavBar/MobileMenu.tsx:105 | while the menu is closed no menu event has any effect |
| NavBar.DesktopActivationScrolls | src/components/NavBar/NavItem.tsx:6-20 | a desktop click, Enter or Space scrolls to the entry's section minus 80, suppresses the default and changes no state; any other key does nothing unless it is Escape with the menu open |
| NavBar.DesktopEscapeClosesMenu | src/components/NavBar/MobileMenu.tsx:26-51 | Escape on a desktop link while the menu is open bubbles to the menu's document listener, which closes the menu and releases the body lock; nothing scrolls |
| NavBar.RsvpClick | src/components/NavBar/NavBar.tsx:22 | clicking RSVP with the menu closed scrolls to the rsvp section's offset minus 80 and nothing else changes |
| NavBar.MenuLinkScrollsAndCloses | src/components/NavBar/MobileMenu.tsx:92-97 | choosing a menu link scrolls to its section and closes the menu, releasing the lock |
| NavBar.MenuButtonToggles | src/components/NavBar/NavBar.tsx:73-87 | the menu button flips the flag with the lock; opening resets the swipe state and focuses the first link |
| NavBar.MenuAgreesWithDesktop | src/components/NavBar/MobileMenu.tsx:141-147 | the menu and the desktop list mark the same entry as current |

## Left out

- Rendering is not modelled: JSX, CSS modules and the class-list `join(' ')`. CSS-module class names
  are replaced by fixed distinct strings.
- BrandLogo.tsx and App.tsx are not modelled, because they are static markup. App.tsx is used only for
  the fact that it passes `currentPage = 'home'`.
- The footer date in `MobileMenu.tsx:157` ('June 15, 2024') disagrees with the date in
  `BrandLogo.tsx:12` and `App.tsx:17` ('March 14, 2026'). This is not modelled. It is flagged here as
  an inconsistency in the source.
- The 100 ms load timer (`NavBar.tsx:65-70`) is not modelled. `hasLoaded` is an input to the class
  list only.
- `requestAnimationFrame` timing is abstract: frames are events, and no real time is modelled.
- Several DOM APIs are abstract or absent:
  - `window.scrollTo` is the reply's `scrollTo` value, and smooth scrolling is not modelled;
  - `getElementById` and `offsetTop` are a map;
  - `focus()` and `querySelectorAll` are an element index and a count;
  - listener registration is the `isOpen` / `mounted` gating.
- Offsets and coordinates are JavaScript numbers, abstracted to `int`. Fractional offsets are not
  modelled.
- React hook semantics are not modelled; every handler is a sequential step over explicit state.
  - The scroll handler reads `lastScrollY` through a closure that is refreshed on each state change.
  - `closeMobileMenu` is a new function on every NavBar render. Because of that, the keydown and swipe
    effects re-register and reset `startX`/`currentX` whenever NavBar re-renders.
  - The model resets the swipe state only when the menu opens.
  - The scroll effect depends on `handleScroll`, which changes with every `lastScrollY` update, so the
    listener and its local `ticking` flag are re-created after each run that changes the offset. "At most one pending
    frame callback" is therefore proved per registration. A callback queued by an earlier registration
    can still fire after a new one has queued its own. The model keeps a single `ticking` flag for the
    component's whole life.
- `RequestAnimationFrame` callbacks that are still pending at unmount are not cancelled by the source.
  The model ignores every event after unmount, which matches React discarding state updates of an
  unmounted component.
- FocusTrap.FocusAfterTab: the move when the handler does not suppress Tab is the browser's.
  It is modelled as "next/previous element in document order", and relies on every focusable
  element being tabbable in that order.
- FocusTrap.HandleKeyDown: the source returns early when the menu panel's element is missing.
  That cannot happen while the menu is open, so it is not modelled.

=== FILE: focus_trap.dfy ===
/** The keydown handler MobileMenu registers while open: Escape requests
    close, and Tab / Shift+Tab wrap around the menu's focusable elements.
    The focusable elements are numbered 0..n-1 in document order; `active`
    is the index of the focused one, None when focus is elsewhere. */
module FocusTrap {
  import opened NavTypes

  const EscapeKey: string := "Escape"
  const TabKey: string := "Tab"

  /** What one keydown does: ask the parent to close, suppress the browser's
      default, and move focus to an element of the list. */
  datatype KeyOutcome = KeyOutcome(requestClose: bool, preventDefault: bool, moveFocus: Option<nat>)

  predicate OnFirst(active: Option<nat>) {
    active == Some(0)
  }

  predicate OnLast(active: Option<nat>, n: nat) {
    active.Some? && active.value + 1 == n
  }

  function HandleKeyDown(key: string, shift: bool, n: nat, active: Option<nat>): (r: KeyOutcome)
    requires active.Some? ==> active.value < n
    ensures r.requestClose <==> key == EscapeKey
    ensures r.preventDefault <==> r.moveFocus.Some?
    ensures r.moveFocus.Some? ==>
              key == TabKey && ((shift && OnFirst(active)) || (!shift && OnLast(active, n)))
    ensures key == TabKey && shift && OnFirst(active) ==> r.moveFocus == Some(n - 1)
    ensures key == TabKey && !shift && OnLast(active, n) ==> r.moveFocus == Some(0)
  {
    var close := key == EscapeKey;
    if key == TabKey && n > 0 then
      if shift && OnFirst(active) then KeyOutcome(close, true, Some(n - 1))
      else if !shift && OnLast(active, n) then KeyOutcome(close, true, Some(0))
      else KeyOutcome(close, false, None)
    else KeyOutcome(close, false, None)
  }

  /** The cyclic successor and predecessor in a list of n elements. */
  function Next(n: nat, i: nat): nat
    requires i < n
  {
    if i + 1 == n then 0 else i + 1
  }

  function Previous(n: nat, i: nat): nat
    requires i < n
  {
    if i == 0 then n - 1 else i - 1
  }

  /** Where focus lands after Tab (or Shift+Tab) pressed on element i: the
      handler's move when it suppressed the default, otherwise the browser's
      own move to the adjacent element in document order. */
  function FocusAfterTab(n: nat, i: nat, shift: bool): (r: nat)
    requires i < n
    ensures r < n
    ensures !shift ==> r == Next(n, i)
    ensures shift ==> r == Previous(n, i)
  {
    var o := HandleKeyDown(TabKey, shift, n, Some(i));
    if o.moveFocus.Some? then o.moveFocus.value
    else if shift then i - 1
    else i + 1
  }

  /** Focus after k presses of Tab from element i. */
  function TabPresses(n: nat, i: nat, k: nat): (r: nat)
    requires i < n
    ensures r < n
    decreases k
  {
    if k == 0 then i else TabPresses(n, FocusAfterTab(n, i, false), k - 1)
  }

  lemma {:induction false} TabPressesCompose(n: nat, i: nat, a: nat, b: nat)
    requires i < n
    ensures TabPresses(n, i, a + b) == TabPresses(n, TabPresses(n, i, a), b)
    decreases a
  {
    if a > 0 {
      TabPressesCompose(n, FocusAfterTab(n, i, false), a - 1, b);
    }
  }

  /** Below the last element, k presses advance focus by k. */
  lemma {:induction false} TabPressesAdvance(n: nat, i: nat, k: nat)
    requires i + k < n
    ensures TabPresses(n, i, k) == i + k
    decreases k
  {
    if k > 0 {
      TabPressesAdvance(n, i + 1, k - 1);
    }
  }

  /** n presses of Tab from any element return focus to it. */
  lemma FullCycle(n: nat, i: nat)
    requires i < n
    ensures TabPresses(n, i, n) == i
  {
    TabPressesAdvance(n, i, n - 1 - i);
    assert TabPresses(n, i, n - i) == TabPresses(n, n - 1, 1) by {
      TabPressesCompose(n, i, n - 1 - i, 1);
    }
    assert TabPresses(n, i, n - i) == 0;
    TabPressesCompose(n, i, n - i, i);
    TabPressesAdvance(n, 0, i);
  }

  /** Shift+Tab on the first element goes to the last; with a single element
      both keys keep focus where it is. */
  lemma Wraps(n: nat)
    requires n > 0
    ensures FocusAfterTab(n, 0, true) == n - 1
    ensures FocusAfterTab(n, n - 1, false) == 0
    ensures n == 1 ==> FocusAfterTab(n, 0, true) == 0 && FocusAfterTab(n, 0, false) == 0
  {
  }

  /** Shift+Tab undoes Tab, and Tab undoes Shift+Tab. */
  lemma TabInverse(n: nat, i: nat)
    requires i < n
    ensures FocusAfterTab(n, FocusAfterTab(n, i, false), true) == i
    ensures FocusAfterTab(n, FocusAfterTab(n, i, true), false) == i
  {
  }

  /** Escape closes whatever the Shift state and focus; it never touches focus. */
  lemma EscapeIndependent(shift: bool, n: nat, active: Option<nat>)
    requires active.Some? ==> active.value < n
    ensures HandleKeyDown(EscapeKey, shift, n, active) == KeyOutcome(true, false, None)
  {
  }
}

=== FILE: frame_throttle.dfy ===
/** The `ticking` throttle around the scroll handler: a scroll event queues
    an animation-frame callback only when none is pending, and the frame
    callback runs the handler and clears the flag. Frames are abstract
    events; no real time is modelled. */
module FrameThrottle {
  import opened ScrollHeader

  /** `queued` counts the animation-frame callbacks requested and not yet run;
      `runs` counts the scroll-handler runs so far. */
  datatype Throttle = Throttle(ticking: bool, queued: nat, header: Header, runs: nat)

  /** A browser scroll event, or an animation frame taken when `window.scrollY == y`. */
  datatype Event = ScrollEvent | AnimationFrame(y: int)

  /** The state when the listener is registered. */
  const Start: Throttle := Throttle(false, 0, Initial, 0)

  /** At most one callback is pending, and `ticking` says exactly whether one is. */
  predicate Valid(t: Throttle) {
    t.queued <= 1 && (t.ticking <==> t.queued == 1)
  }

  /** `throttledScroll`: request a frame unless one is already pending. */
  function OnScroll(t: Throttle): (r: Throttle)
    ensures r.header == t.header && r.runs == t.runs
    ensures t.ticking ==> r == t
    ensures !t.ticking ==> r.ticking && r.queued == t.queued + 1
    ensures Valid(t) ==> Valid(r)
  {
    if t.ticking then t else t.(ticking := true, queued := t.queued + 1)
  }

  /** The scroll handler run k times against the same offset. */
  function RunCallbacks(h: Header, y: int, k: nat): Header
    decreases k
  {
    if k == 0 then h else HandleScroll(RunCallbacks(h, y, k - 1), y)
  }

  /** An animation frame: every pending callback runs the handler with the
      offset read at frame time, then sets `ticking` back to false. */
  function OnFrame(t: Throttle, y: int): (r: Throttle)
    ensures r.queued == 0
    ensures r.runs == t.runs + t.queued
    ensures t.queued == 0 ==> r == t
    ensures t.queued == 1 ==> !r.ticking && r.header == HandleScroll(t.header, y)
    ensures Valid(t) ==> Valid(r)
  {
    if t.queued == 0 then t
    else Throttle(false, 0, RunCallbacks(t.header, y, t.queued), t.runs + t.queued)
  }

  function Apply(t: Throttle, e: Event): Throttle {
    match e
    case ScrollEvent => OnScroll(t)
    case AnimationFrame(y) => OnFrame(t, y)
  }

  /** The events applied in order. */
  function Replay(t: Throttle, es: seq<Event>): Throttle
    decreases |es|
  {
    if |es| == 0 then t else Apply(Replay(t, es[..|es| - 1]), es[|es| - 1])
  }

  function CountScrolls(es: seq<Event>): nat
    decreases |es|
  {
    if |es| == 0 then 0
    else CountScrolls(es[..|es| - 1]) + (if es[|es| - 1].ScrollEvent? then 1 else 0)
  }

  function CountFrames(es: seq<Event>): nat
    decreases |es|
  {
    if |es| == 0 then 0
    else CountFrames(es[..|es| - 1]) + (if es[|es| - 1].AnimationFrame? then 1 else 0)
  }

  /** Over any event sequence from registration, at most one frame is ever
      pending, and the handler runs at most once per frame and never more
      often than scroll events arrived. */
  lemma {:induction false} ReplayCoalesces(es: seq<Event>)
    ensures Valid(Replay(Start, es))
    ensures Replay(Start, es).runs <= CountFrames(es)
    ensures Replay(Start, es).runs + Replay(Start, es).queued <= CountScrolls(es)
    decreases |es|
  {
    if |es| > 0 {
      ReplayCoalesces(es[..|es| - 1]);
    }
  }

  /** A burst of scroll events without a frame leaves exactly one callback
      pending, whether or not one was already pending when it began. */
  lemma {:induction false} BurstQueuesOne(t: Throttle, k: nat)
    requires Valid(t) && k > 0
    ensures Replay(t, seq(k, _ => ScrollEvent)) == t.(ticking := true, queued := 1)
    decreases k
  {
    var es := seq(k, _ => ScrollEvent);
    if k > 1 {
      assert es[..k - 1] == seq(k - 1, _ => ScrollEvent);
      BurstQueuesOne(t, k - 1);
    } else {
      assert es[..0] == [];
    }
  }

  /** However many scroll events a burst holds, the next frame runs the
      handler exactly once, on the offset current at that frame. */
  lemma BurstRunsOnce(t: Throttle, k: nat, y: int)
    requires Valid(t) && k > 0
    ensures var r := Replay(t, seq(k, _ => ScrollEvent) + [AnimationFrame(y)]);
            r.runs == t.runs + 1 && r.header == HandleScroll(t.header, y) && !r.ticking
  {
    var es := seq(k, _ => ScrollEvent) + [AnimationFrame(y)];
    assert es[..k] == seq(k, _ => ScrollEvent);
    BurstQueuesOne(t, k);
  }
}

=== FILE: menu_lock.dfy ===
/** The mobile-menu open flag owned by NavBar and the page scroll lock that
    mirrors it through `document.body.style.overflow`. */
module MenuLock {

  /** The two values the component writes to the body's overflow style. */
  datatype Overflow = Hidden | Unset

  /** `overflow` is the body style, which exists before the component mounts
      and outlives it. */
  datatype Lock = Lock(mounted: bool, isOpen: bool, overflow: Overflow)

  datatype LockEvent = Toggle | Close | Unmount

  /** The style the effect body writes for a given open flag. */
  function Mirror(open: bool): Overflow {
    if open then Hidden else Unset
  }

  /** The lock is held exactly while the mounted menu is open. */
  predicate Mirrors(l: Lock) {
    l.overflow == Hidden <==> l.mounted && l.isOpen
  }

  /** Mounting: the menu starts closed and the first effect run writes 'unset',
      whatever the page had set before. */
  function Mount(prior: Overflow): (r: Lock)
    ensures r.mounted && !r.isOpen && r.overflow == Unset
    ensures Mirrors(r)
  {
    Lock(true, false, Mirror(false))
  }

  /** A change of the open flag. The effect depends on the flag only, so it
      re-runs only when the flag actually changes: the previous run's cleanup
      writes 'unset', then the new run writes the mirror of the flag. */
  function SetOpen(l: Lock, open: bool): (r: Lock)
    ensures !l.mounted ==> r == l
    ensures l.mounted ==> r.mounted && r.isOpen == open
    ensures l.mounted && open != l.isOpen ==> r.overflow == Mirror(open)
    ensures l.mounted && open == l.isOpen ==> r == l
    ensures Mirrors(l) ==> Mirrors(r)
  {
    if !l.mounted || open == l.isOpen then l
    else
      var cleaned := l.(overflow := Unset);
      cleaned.(isOpen := open, overflow := Mirror(open))
  }

  /** `toggleMobileMenu`. */
  function ToggleMenu(l: Lock): (r: Lock)
    ensures l.mounted ==> r.isOpen == !l.isOpen
    ensures Mirrors(l) ==> Mirrors(r)
  {
    SetOpen(l, !l.isOpen)
  }

  /** `closeMobileMenu`: every closing path of the menu ends here. */
  function CloseMenu(l: Lock): (r: Lock)
    ensures !r.isOpen || !l.mounted
    ensures l.mounted && Mirrors(l) ==> r.overflow == Unset
    ensures Mirrors(l) ==> Mirrors(r)
  {
    SetOpen(l, false)
  }

  /** Unmounting runs the last cleanup, which releases the lock unconditionally. */
  function UnmountLock(l: Lock): (r: Lock)
    ensures !r.mounted
    ensures l.mounted ==> r.overflow == Unset
    ensures Mirrors(l) ==> Mirrors(r)
  {
    if l.mounted then l.(mounted := false, overflow := Unset) else l
  }

  function Apply(l: Lock, e: LockEvent): Lock {
    match e
    case Toggle => ToggleMenu(l)
    case Close => CloseMenu(l)
    case Unmount => UnmountLock(l)
  }

  function Replay(l: Lock, es: seq<LockEvent>): Lock
    decreases |es|
  {
    if |es| == 0 then l else Apply(Replay(l, es[..|es| - 1]), es[|es| - 1])
  }

  /** Over any sequence of toggles, closes and unmounts, the body is locked
      exactly while the mounted menu is open, and released after unmount. */
  lemma {:induction false} LockMirrorsMenu(prior: Overflow, es: seq<LockEvent>)
    ensures Mirrors(Replay(Mount(prior), es))
    ensures !Replay(Mount(prior), es).mounted ==> Replay(Mount(prior), es).overflow == Unset
    decreases |es|
  {
    if |es| > 0 {
      LockMirrorsMenu(prior, es[..|es| - 1]);
    }
  }

  /** Toggling twice restores the state, lock included. */
  lemma ToggleTwice(l: Lock)
    requires Mirrors(l)
    ensures ToggleMenu(ToggleMenu(l)) == l
  {
  }

  /** Closing is idempotent. */
  lemma CloseIdempotent(l: Lock)
    ensures CloseMenu(CloseMenu(l)) == CloseMenu(l)
  {
  }
}

=== FILE: mobile_menu.dfy ===
/** The mobile overlay menu: what each event does while it is open, and that
    it does nothing while closed (it renders nothing and has no listeners). */
module MobileMenu {
  import opened NavTypes
  import FocusTrap
  import SwipeGesture

  /** The props NavBar passes. `hasNavHandler` says whether `onNavItemClick`
      was given; `currentPage` is optional. */
  datatype Props = Props(isOpen: bool, navItems: seq<NavItem>, currentPage: Option<string>, hasNavHandler: bool)

  /** Events reaching the menu. A click lands on the dimmed backdrop itself,
      on the close button, on the i-th link, or elsewhere in the panel; every
      click inside the panel also bubbles up to the backdrop's handler. */
  datatype MenuEvent =
    | KeyDown(key: string, shift: bool, active: Option<nat>)
    | Touch(t: SwipeGesture.Touch)
    | BackdropClick
    | PanelClick
    | CloseButtonClick
    | LinkClick(index: nat)

  /** The swipe state after the event, the intents sent to NavBar in call
      order, whether the default was suppressed, and any explicit focus move. */
  datatype Output = Output(swipe: SwipeGesture.Swipe, intents: seq<Intent>, preventDefault: bool, moveFocus: Option<nat>)

  /** Focusable elements of the open panel, in document order: the close
      button, then one link per entry. */
  function FocusableCount(p: Props): nat {
    1 + |p.navItems|
  }

  /** The focused element, if any, is one of the panel's, and a clicked link exists. */
  predicate WellFormed(p: Props, ev: MenuEvent) {
    match ev
    case KeyDown(_, _, active) => active.Some? ==> active.value < FocusableCount(p)
    case LinkClick(i) => i < |p.navItems|
    case _ => true
  }

  /** `handleNavItemClick`: forward the anchor if a handler was given, then close. */
  function SelectItem(hasNavHandler: bool, href: string): (r: seq<Intent>)
    ensures |r| == (if hasNavHandler then 2 else 1)
    ensures r[|r| - 1] == RequestClose
    ensures forall k :: 0 <= k < |r| - 1 ==> r[k] == Navigate(href)
  {
    (if hasNavHandler then [Navigate(href)] else []) + [RequestClose]
  }

  /** `handleOverlayClick`: close only when the click's target is the backdrop
      itself rather than something inside the panel. */
  function OverlayClick(targetIsBackdrop: bool): (r: seq<Intent>)
    ensures RequestClose in r <==> targetIsBackdrop
    ensures |r| <= 1
  {
    if targetIsBackdrop then [RequestClose] else []
  }

  /** The events that close the open menu: Escape, a touchend after a net
      rightward swipe above 100, the backdrop, the close button, a link. */
  predicate Closes(s: SwipeGesture.Swipe, ev: MenuEvent) {
    || (ev.KeyDown? && ev.key == FocusTrap.EscapeKey)
    || (ev == Touch(SwipeGesture.TouchEnd) && s.currentX - s.startX > SwipeGesture.CloseDistance)
    || ev.BackdropClick?
    || ev.CloseButtonClick?
    || ev.LinkClick?
  }

  /** A keydown on the open menu. */
  function KeyEvent(p: Props, s: SwipeGesture.Swipe, key: string, shift: bool, active: Option<nat>): (o: Output)
    requires active.Some? ==> active.value < FocusableCount(p)
    ensures o.swipe == s
    ensures o.intents == (if key == FocusTrap.EscapeKey then [RequestClose] else [])
    ensures o.moveFocus.Some? ==> o.moveFocus.value < FocusableCount(p)
    ensures var k := FocusTrap.HandleKeyDown(key, shift, FocusableCount(p), active);
            o.preventDefault == k.preventDefault && o.moveFocus == k.moveFocus
  {
    var k := FocusTrap.HandleKeyDown(key, shift, FocusableCount(p), active);
    Output(s, if k.requestClose then [RequestClose] else [], k.preventDefault, k.moveFocus)
  }

  /** A touch event on the open menu's panel. */
  function TouchEvent(s: SwipeGesture.Swipe, t: SwipeGesture.Touch): (o: Output)
    ensures o.intents == (if t.TouchEnd? && s.currentX - s.startX > SwipeGesture.CloseDistance then [RequestClose] else [])
    ensures !o.preventDefault && o.moveFocus.None?
    ensures o.swipe == SwipeGesture.OnTouch(s, t).state
  {
    var st := SwipeGesture.OnTouch(s, t);
    Output(st.state, if st.close then [RequestClose] else [], false, None)
  }

  /** A click on the open menu: the handler of the element hit, then the
      backdrop's handler the click bubbles to. */
  function ClickEvent(p: Props, s: SwipeGesture.Swipe, ev: MenuEvent): (o: Output)
    requires ev.BackdropClick? || ev.PanelClick? || ev.CloseButtonClick? || ev.LinkClick?
    requires WellFormed(p, ev)
    ensures o.swipe == s && o.moveFocus.None?
    ensures ev.LinkClick? ==> o.intents == SelectItem(p.hasNavHandler, p.navItems[ev.index].href)
    ensures !ev.LinkClick? ==> o.intents == (if ev.PanelClick? then [] else [RequestClose])
  {
    match ev
    case BackdropClick => Output(s, OverlayClick(true), false, None)
    case PanelClick => Output(s, OverlayClick(false), false, None)
    case CloseButtonClick => Output(s, [RequestClose] + OverlayClick(false), false, None)
    case LinkClick(i) =>
      Output(s, SelectItem(p.hasNavHandler, p.navItems[i].href) + OverlayClick(false), true, None)
  }

  function Dispatch(p: Props, s: SwipeGesture.Swipe, ev: MenuEvent): (o: Output)
    requires WellFormed(p, ev)
    ensures !p.isOpen ==> o == Output(s, [], false, None)
    ensures RequestClose in o.intents <==> p.isOpen && Closes(s, ev)
    ensures forall k :: 0 <= k < |o.intents| && o.intents[k].Navigate? ==>
              ev.LinkClick? && p.hasNavHandler && o.intents[k].href == p.navItems[ev.index].href
    ensures |o.intents| > 0 ==> o.intents[|o.intents| - 1] == RequestClose
    ensures !ev.Touch? ==> o.swipe == s
    ensures o.moveFocus.Some? ==> o.moveFocus.value < FocusableCount(p)
    ensures p.isOpen && ev.Touch? ==>
              o.swipe == SwipeGesture.OnTouch(s, ev.t).state && !o.preventDefault && o.moveFocus.None?
    ensures p.isOpen && ev.KeyDown? ==>
              var k := FocusTrap.HandleKeyDown(ev.key, ev.shift, FocusableCount(p), ev.active);
              o.preventDefault == k.preventDefault && o.moveFocus == k.moveFocus
  {
    if !p.isOpen then Output(s, [], false, None)
    else
      match ev
      case KeyDown(key, shift, active) => KeyEvent(p, s, key, shift, active)
      case Touch(t) => TouchEvent(s, t)
      case _ => ClickEvent(p, s, ev)
  }

  /** A link click navigates first, exactly once and only with a handler, and
      then closes exactly once. */
  lemma LinkNavigatesThenCloses(p: Props, s: SwipeGesture.Swipe, i: nat)
    requires p.isOpen && i < |p.navItems|
    ensures var o := Dispatch(p, s, LinkClick(i));
            && o.preventDefault
            && (p.hasNavHandler ==> o.intents == [Navigate(p.navItems[i].href), RequestClose])
            && (!p.hasNavHandler ==> o.intents == [RequestClose])
  {
  }

  /** Focus on opening goes to the first link, which follows the close button. */
  function FocusOnOpen(p: Props): (r: Option<nat>)
    ensures r.Some? <==> p.isOpen && |p.navItems| > 0
    ensures r.Some? ==> 0 < r.value < FocusableCount(p)
    ensures r.Some? ==> r.value == 1
  {
    if p.isOpen && |p.navItems| > 0 then Some(1) else None
  }

  /** The menu styles a link as current by comparing the optional current
      page with the entry's id, not by the entry's own flag. */
  function LinkAriaCurrent(p: Props, item: NavItem): (r: Option<string>)
    ensures r.Some? <==> p.currentPage == Some(item.id)
    ensures r.Some? ==> r.value == "page"
  {
    if p.currentPage == Some(item.id) then Some("page") else None
  }
}

=== FILE: nav_bar.dfy ===
/** NavBar as a whole: the state it and its mobile menu keep between events,
    one step per browser event, and the end-to-end guarantees that tie the
    pieces together. */
module NavBar {
  import opened NavTypes
  import FrameThrottle
  import MenuLock
  import SwipeGesture
  import MobileMenu
  import FocusTrap
  import NavList
  import NavItemEvents

  /** The current-page prop, the scroll throttle and header, the menu flag
      with the body lock, and the menu's swipe listener state. */
  datatype Controller = Controller(
    currentPage: string,
    frames: FrameThrottle.Throttle,
    lock: MenuLock.Lock,
    swipe: SwipeGesture.Swipe)

  /** Browser events. Desktop events name an entry by its index. */
  datatype Input =
    | ScrollEvent
    | AnimationFrame(y: int)
    | MenuButton
    | DesktopClick(index: nat)
    | DesktopKey(index: nat, key: string)
    | Menu(ev: MobileMenu.MenuEvent)
    | Unmount

  /** The state after an event, the position `window.scrollTo` was asked
      for, whether the default was suppressed, and any explicit focus move. */
  datatype Reply = Reply(next: Controller, scrollTo: Option<int>, preventDefault: bool, moveFocus: Option<nat>)

  /** Intents carried out so far, with the last scroll requested. */
  datatype Applied = Applied(c: Controller, scrollTo: Option<int>)

  function Mount(currentPage: string, prior: MenuLock.Overflow): Controller {
    Controller(currentPage, FrameThrottle.Start, MenuLock.Mount(prior), SwipeGesture.Fresh)
  }

  predicate Valid(c: Controller) {
    FrameThrottle.Valid(c.frames) && MenuLock.Mirrors(c.lock)
  }

  /** The props NavBar gives its menu: always a navigation handler, and the
      menu is open only while NavBar is mounted with the flag set. */
  function MenuProps(c: Controller): MobileMenu.Props {
    MobileMenu.Props(c.lock.mounted && c.lock.isOpen, NavList.NavItems(c.currentPage), Some(c.currentPage), true)
  }

  /** Inputs that refer only to elements that exist. */
  predicate InputOk(inp: Input) {
    match inp
    case DesktopClick(i) => i < 6
    case DesktopKey(i, _) => i < 6
    case Menu(ev) =>
      (match ev
       case KeyDown(_, _, active) => active.Some? ==> active.value < 7
       case LinkClick(i) => i < 6
       case _ => true)
    case _ => true
  }

  lemma InputOkWellFormed(c: Controller, inp: Input)
    requires InputOk(inp) && inp.Menu?
    ensures MobileMenu.WellFormed(MenuProps(c), inp.ev)
  {
  }

  /** A desktop link's callback calls as intents. */
  function AsIntents(calls: seq<string>): (r: seq<Intent>)
    ensures |r| == |calls|
    ensures forall k :: 0 <= k < |r| ==> r[k] == Navigate(calls[k])
  {
    seq(|calls|, k requires 0 <= k < |calls| => Navigate(calls[k]))
  }

  /** Carry out one intent: a navigation scrolls when its anchor exists and
      is silently skipped otherwise; a close request closes the menu. */
  function PerformOne(a: Applied, doc: map<string, int>, intent: Intent): Applied {
    match intent
    case Navigate(href) =>
      (match NavList.ScrollTarget(doc, href)
       case Some(y) => a.(scrollTo := Some(y))
       case None => a)
    case RequestClose => a.(c := a.c.(lock := MenuLock.CloseMenu(a.c.lock)))
  }

  /** Carry out intents one after another, in call order. */
  function Perform(a: Applied, doc: map<string, int>, intents: seq<Intent>): (r: Applied)
    ensures r.c == a.c.(lock := r.c.lock)
    ensures RequestClose !in intents ==> r.c == a.c
    decreases |intents|
  {
    if |intents| == 0 then a
    else
      var a' := PerformOne(a, doc, intents[0]);
      Perform(a', doc, intents[1..])
  }

  /** Intents touch nothing but the lock and the scroll request; the lock ends
      closed and released iff a close was requested, and is otherwise untouched. */
  lemma {:induction false} PerformEffects(a: Applied, doc: map<string, int>, intents: seq<Intent>)
    requires MenuLock.Mirrors(a.c.lock)
    ensures var r := Perform(a, doc, intents);
            && r.c == a.c.(lock := r.c.lock)
            && MenuLock.Mirrors(r.c.lock)
            && r.c.lock.mounted == a.c.lock.mounted
            && (RequestClose !in intents ==> r.c.lock == a.c.lock)
            && (RequestClose in intents && a.c.lock.mounted ==> !r.c.lock.isOpen && r.c.lock.overflow == MenuLock.Unset)
    decreases |intents|
  {
    if |intents| > 0 {
      var a' := PerformOne(a, doc, intents[0]);
      assert Perform(a, doc, intents) == Perform(a', doc, intents[1..]);
      PerformEffects(a', doc, intents[1..]);
      assert intents == [intents[0]] + intents[1..];
      if intents[0] == RequestClose && RequestClose !in intents[1..] {
        var r := Perform(a', doc, intents[1..]);
        assert r.c.lock == MenuLock.CloseMenu(a.c.lock);
      }
    }
  }

  /** A single navigation yields its anchor's scroll target (none when the
      anchor is missing); navigation followed by a close request yields the
      same target and also closes the menu. */
  lemma {:induction false} PerformNavigate(c: Controller, doc: map<string, int>, href: string)
    ensures Perform(Applied(c, None), doc, [Navigate(href)]) == Applied(c, NavList.ScrollTarget(doc, href))
    ensures Perform(Applied(c, None), doc, [Navigate(href), RequestClose]) ==
              Applied(c.(lock := MenuLock.CloseMenu(c.lock)), NavList.ScrollTarget(doc, href))
  {
    assert [Navigate(href)][1..] == [];
    assert [Navigate(href), RequestClose][1..] == [RequestClose];
    assert [RequestClose][1..] == [];
  }

  /** A keydown on a desktop link, after the link's own handler, bubbles up to
      the document, where the open menu's keydown listener sees it with focus
      outside the panel (so the Shift state cannot matter). */
  function DocumentKeyDown(c: Controller, key: string): (o: MobileMenu.Output)
    ensures o.swipe == c.swipe && o.moveFocus.None? && !o.preventDefault
    ensures o.intents == (if c.lock.mounted && c.lock.isOpen && key == FocusTrap.EscapeKey then [RequestClose] else [])
  {
    MobileMenu.Dispatch(MenuProps(c), c.swipe, MobileMenu.KeyDown(key, false, None))
  }

  /** One browser event. Nothing happens once NavBar has unmounted: every
      listener is gone and nothing is rendered. */
  function Step(c: Controller, doc: map<string, int>, inp: Input): (r: Reply)
    requires InputOk(inp)
    ensures !c.lock.mounted ==> r == Reply(c, None, false, None)
  {
    if !c.lock.mounted then Reply(c, None, false, None)
    else
      match inp
      case ScrollEvent => Reply(c.(frames := FrameThrottle.OnScroll(c.frames)), None, false, None)
      case AnimationFrame(y) => Reply(c.(frames := FrameThrottle.OnFrame(c.frames, y)), None, false, None)
      case MenuButton =>
        var lock := MenuLock.ToggleMenu(c.lock);
        // Opening attaches fresh swipe listeners and focuses the first link.
        var c' := if lock.isOpen && !c.lock.isOpen then c.(lock := lock, swipe := SwipeGesture.Fresh) else c.(lock := lock);
        Reply(c', None, false, if c.lock.isOpen then None else MobileMenu.FocusOnOpen(MenuProps(c')))
      case DesktopClick(i) =>
        var re := NavItemEvents.OnClick(NavList.NavItems(c.currentPage)[i], true);
        var a := Perform(Applied(c, None), doc, AsIntents(re.calls));
        Reply(a.c, a.scrollTo, re.preventDefault, None)
      case DesktopKey(i, key) =>
        var re := NavItemEvents.OnKeyDown(NavList.NavItems(c.currentPage)[i], true, key);
        var o := DocumentKeyDown(c, key);
        var a := Perform(Applied(c, None), doc, AsIntents(re.calls) + o.intents);
        Reply(a.c, a.scrollTo, re.preventDefault || o.preventDefault, o.moveFocus)
      case Menu(ev) =>
        InputOkWellFormed(c, inp);
        var o := MobileMenu.Dispatch(MenuProps(c), c.swipe, ev);
        var a := Perform(Applied(c.(swipe := o.swipe), None), doc, o.intents);
        Reply(a.c, a.scrollTo, o.preventDefault, o.moveFocus)
      case Unmount => Reply(c.(lock := MenuLock.UnmountLock(c.lock)), None, false, None)
  }

  /** Every event keeps at most one frame pending and the body lock equal to
      "mounted and open". */
  lemma StepPreservesValid(c: Controller, doc: map<string, int>, inp: Input)
    requires Valid(c) && InputOk(inp)
    ensures Valid(Step(c, doc, inp).next)
  {
    if c.lock.mounted {
      match inp
      case DesktopClick(i) =>
        var re := NavItemEvents.OnClick(NavList.NavItems(c.currentPage)[i], true);
        PerformEffects(Applied(c, None), doc, AsIntents(re.calls));
      case DesktopKey(i, key) =>
        var re := NavItemEvents.OnKeyDown(NavList.NavItems(c.currentPage)[i], true, key);
        PerformEffects(Applied(c, None), doc, AsIntents(re.calls) + DocumentKeyDown(c, key).intents);
      case Menu(ev) =>
        InputOkWellFormed(c, inp);
        var o := MobileMenu.Dispatch(MenuProps(c), c.swipe, ev);
        PerformEffects(Applied(c.(swipe := o.swipe), None), doc, o.intents);
      case _ =>
    }
  }

  /** The inputs applied in order. */
  function Replay(c: Controller, doc: map<string, int>, inputs: seq<Input>): Controller
    requires forall k :: 0 <= k < |inputs| ==> InputOk(inputs[k])
    decreases |inputs|
  {
    if |inputs| == 0 then c
    else Step(Replay(c, doc, inputs[..|inputs| - 1]), doc, inputs[|inputs| - 1]).next
  }

  /** From mount, over any sequence of events, the body is locked exactly
      while the mounted menu is open and at most one frame is pending. */
  lemma {:induction false} ReplayValid(currentPage: string, prior: MenuLock.Overflow, doc: map<string, int>, inputs: seq<Input>)
    requires forall k :: 0 <= k < |inputs| ==> InputOk(inputs[k])
    ensures Valid(Replay(Mount(currentPage, prior), doc, inputs))
    decreases |inputs|
  {
    if |inputs| > 0 {
      var n := |inputs| - 1;
      ReplayValid(currentPage, prior, doc, inputs[..n]);
      StepPreservesValid(Replay(Mount(currentPage, prior), doc, inputs[..n]), doc, inputs[n]);
    }
  }

  /** While the menu is open, Escape, a swipe right above 100, a backdrop
      click, the close button and a link each close it and release the body
      lock; every other menu event leaves the flag and the lock alone. */
  lemma CloseTriggersUnlock(c: Controller, doc: map<string, int>, ev: MobileMenu.MenuEvent)
    requires Valid(c) && c.lock.mounted && c.lock.isOpen && InputOk(Menu(ev))
    ensures var r := Step(c, doc, Menu(ev));
            MobileMenu.Closes(c.swipe, ev) ==> !r.next.lock.isOpen && r.next.lock.overflow == MenuLock.Unset
    ensures var r := Step(c, doc, Menu(ev));
            !MobileMenu.Closes(c.swipe, ev) ==> r.next.lock == c.lock
  {
    InputOkWellFormed(c, Menu(ev));
    var o := MobileMenu.Dispatch(MenuProps(c), c.swipe, ev);
    PerformEffects(Applied(c.(swipe := o.swipe), None), doc, o.intents);
  }

  /** While mounted, scroll events and frames go to the throttle alone, and
      with the menu open a touch goes to the swipe handlers and a keydown in
      the panel to the focus trap of its seven focusable elements. */
  lemma StepRoutes(c: Controller, doc: map<string, int>, inp: Input)
    requires c.lock.mounted && InputOk(inp)
    ensures inp.ScrollEvent? ==> Step(c, doc, inp) == Reply(c.(frames := FrameThrottle.OnScroll(c.frames)), None, false, None)
    ensures inp.AnimationFrame? ==> Step(c, doc, inp) == Reply(c.(frames := FrameThrottle.OnFrame(c.frames, inp.y)), None, false, None)
    ensures c.lock.isOpen && inp.Menu? && inp.ev.Touch? ==>
              Step(c, doc, inp).next.swipe == SwipeGesture.OnTouch(c.swipe, inp.ev.t).state
    ensures c.lock.isOpen && inp.Menu? && inp.ev.KeyDown? ==>
              var k := FocusTrap.HandleKeyDown(inp.ev.key, inp.ev.shift, 7, inp.ev.active);
              var r := Step(c, doc, inp);
              r.preventDefault == k.preventDefault && r.moveFocus == k.moveFocus
  {
    if inp.Menu? {
      InputOkWellFormed(c, inp);
      assert MobileMenu.FocusableCount(MenuProps(c)) == 7;
      var o := MobileMenu.Dispatch(MenuProps(c), c.swipe, inp.ev);
      var a := Perform(Applied(c.(swipe := o.swipe), None), doc, o.intents);
      assert a.c.swipe == o.swipe;
    }
  }

  /** The focus trap in the open menu: Tab on the last link returns to the
      close button and Shift+Tab on the close button goes to the last link,
      each suppressing the default and leaving the state alone. */
  lemma MenuTabWraps(c: Controller, doc: map<string, int>)
    requires c.lock.mounted && c.lock.isOpen
    ensures Step(c, doc, Menu(MobileMenu.KeyDown(FocusTrap.TabKey, false, Some(6)))) == Reply(c, None, true, Some(0))
    ensures Step(c, doc, Menu(MobileMenu.KeyDown(FocusTrap.TabKey, true, Some(0)))) == Reply(c, None, true, Some(6))
  {
    StepRoutes(c, doc, Menu(MobileMenu.KeyDown(FocusTrap.TabKey, false, Some(6))));
    StepRoutes(c, doc, Menu(MobileMenu.KeyDown(FocusTrap.TabKey, true, Some(0))));
  }

  /** A swipe on the open menu, touchstart at a, touchmove to b, then
      touchend, closes the menu and releases the lock exactly when b - a > 100. */
  lemma MenuSwipeCloses(c: Controller, doc: map<string, int>, a: int, b: int)
    requires Valid(c) && c.lock.mounted && c.lock.isOpen
    ensures var c1 := Step(c, doc, Menu(MobileMenu.Touch(SwipeGesture.TouchStart(a)))).next;
            var c2 := Step(c1, doc, Menu(MobileMenu.Touch(SwipeGesture.TouchMove(b)))).next;
            var r := Step(c2, doc, Menu(MobileMenu.Touch(SwipeGesture.TouchEnd)));
            && (b - a > SwipeGesture.CloseDistance ==> !r.next.lock.isOpen && r.next.lock.overflow == MenuLock.Unset)
            && (b - a <= SwipeGesture.CloseDistance ==> r.next.lock == c.lock)
  {
    var c1 := Step(c, doc, Menu(MobileMenu.Touch(SwipeGesture.TouchStart(a)))).next;
    CloseTriggersUnlock(c, doc, MobileMenu.Touch(SwipeGesture.TouchStart(a)));
    StepRoutes(c, doc, Menu(MobileMenu.Touch(SwipeGesture.TouchStart(a))));
    StepPreservesValid(c, doc, Menu(MobileMenu.Touch(SwipeGesture.TouchStart(a))));
    var c2 := Step(c1, doc, Menu(MobileMenu.Touch(SwipeGesture.TouchMove(b)))).next;
    CloseTriggersUnlock(c1, doc, MobileMenu.Touch(SwipeGesture.TouchMove(b)));
    StepRoutes(c1, doc, Menu(MobileMenu.Touch(SwipeGesture.TouchMove(b))));
    StepPreservesValid(c1, doc, Menu(MobileMenu.Touch(SwipeGesture.TouchMove(b))));
    assert c2.lock == c.lock && c2.swipe == SwipeGesture.Swipe(a, b);
    CloseTriggersUnlock(c2, doc, MobileMenu.Touch(SwipeGesture.TouchEnd));
  }

  /** Unmounting releases the lock even while the menu is open, and nothing
      reacts afterwards. */
  lemma UnmountReleases(c: Controller, doc: map<string, int>, inp: Input)
    requires c.lock.mounted && InputOk(inp)
    ensures var u := Step(c, doc, Unmount).next;
            u.lock.overflow == MenuLock.Unset && Step(u, doc, inp) == Reply(u, None, false, None)
  {
  }

  /** While the menu is closed it reacts to nothing. */
  lemma ClosedMenuInert(c: Controller, doc: map<string, int>, ev: MobileMenu.MenuEvent)
    requires c.lock.mounted && !c.lock.isOpen && InputOk(Menu(ev))
    ensures Step(c, doc, Menu(ev)) == Reply(c, None, false, None)
  {
    InputOkWellFormed(c, Menu(ev));
    assert Perform(Applied(c, None), doc, []) == Applied(c, None);
  }

  /** A desktop link's click: the NavItem handler's navigation, nothing else. */
  lemma DesktopClickStep(c: Controller, doc: map<string, int>, i: nat)
    requires c.lock.mounted && i < 6
    ensures Step(c, doc, DesktopClick(i)) ==
              Reply(c, NavList.ScrollTarget(doc, NavList.NavItems(c.currentPage)[i].href), true, None)
  {
    var item := NavList.NavItems(c.currentPage)[i];
    assert AsIntents([item.href]) == [Navigate(item.href)];
    PerformNavigate(c, doc, item.href);
  }

  /** A keydown on a desktop link other than Escape on the open menu: the
      NavItem handler alone decides. */
  lemma DesktopKeyStep(c: Controller, doc: map<string, int>, i: nat, key: string)
    requires c.lock.mounted && i < 6
    requires key != FocusTrap.EscapeKey || !c.lock.isOpen
    ensures NavItemEvents.ActivationKey(key) ==>
              Step(c, doc, DesktopKey(i, key)) ==
                Reply(c, NavList.ScrollTarget(doc, NavList.NavItems(c.currentPage)[i].href), true, None)
    ensures !NavItemEvents.ActivationKey(key) ==> Step(c, doc, DesktopKey(i, key)) == Reply(c, None, false, None)
  {
    var item := NavList.NavItems(c.currentPage)[i];
    var o := DocumentKeyDown(c, key);
    assert o.intents == [];
    if NavItemEvents.ActivationKey(key) {
      assert AsIntents([item.href]) + o.intents == [Navigate(item.href)];
      PerformNavigate(c, doc, item.href);
    } else {
      assert AsIntents([]) + o.intents == [];
    }
  }

  /** Clicking (or pressing Enter or Space on) a desktop link scrolls so the
      entry's section sits 80 pixels below the top, suppresses the default,
      and changes no state; without the section nothing scrolls. Any other
      key does nothing, except Escape while the menu is open. */
  lemma DesktopActivationScrolls(c: Controller, doc: map<string, int>, i: nat, key: string)
    requires c.lock.mounted && i < 6
    ensures var id := NavList.SectionIds[i];
            var target := if id in doc then Some(doc[id] - NavList.HeaderHeight) else None;
            && Step(c, doc, DesktopClick(i)) == Reply(c, target, true, None)
            && (NavItemEvents.ActivationKey(key) ==> Step(c, doc, DesktopKey(i, key)) == Reply(c, target, true, None))
    ensures !NavItemEvents.ActivationKey(key) && (key != FocusTrap.EscapeKey || !c.lock.isOpen) ==>
              Step(c, doc, DesktopKey(i, key)) == Reply(c, None, false, None)
  {
    NavList.EntryTargetsItsSection(doc, c.currentPage, i);
    DesktopClickStep(c, doc, i);
    if key != FocusTrap.EscapeKey || !c.lock.isOpen {
      DesktopKeyStep(c, doc, i, key);
    }
  }

  /** Escape pressed on a desktop link while the menu is open bubbles to the
      menu's document listener: the menu closes and the body lock is released,
      and nothing scrolls. */
  lemma DesktopEscapeClosesMenu(c: Controller, doc: map<string, int>, i: nat)
    requires Valid(c) && c.lock.mounted && c.lock.isOpen && i < 6
    ensures var r := Step(c, doc, DesktopKey(i, FocusTrap.EscapeKey));
            && r.next == c.(lock := MenuLock.CloseMenu(c.lock))
            && !r.next.lock.isOpen && r.next.lock.overflow == MenuLock.Unset
            && r.scrollTo.None? && !r.preventDefault && r.moveFocus.None?
  {
    var re := NavItemEvents.OnKeyDown(NavList.NavItems(c.currentPage)[i], true, FocusTrap.EscapeKey);
    assert re.calls == [];
    assert AsIntents(re.calls) + DocumentKeyDown(c, FocusTrap.EscapeKey).intents == [RequestClose];
    assert [RequestClose][1..] == [];
  }

  /** The example of a click on "RSVP" with the menu closed. */
  lemma RsvpClick(c: Controller, doc: map<string, int>)
    requires c.lock.mounted && !c.lock.isOpen && "rsvp" in doc
    ensures Step(c, doc, DesktopClick(2)) == Reply(c, Some(doc["rsvp"] - 80), true, None)
  {
    DesktopActivationScrolls(c, doc, 2, "");
  }

  /** Choosing a link in the open menu scrolls to its section and then closes
      the menu, releasing the body lock. */
  lemma MenuLinkScrollsAndCloses(c: Controller, doc: map<string, int>, i: nat)
    requires Valid(c) && c.lock.mounted && c.lock.isOpen && i < 6
    ensures var id := NavList.SectionIds[i];
            var r := Step(c, doc, Menu(MobileMenu.LinkClick(i)));
            && r.scrollTo == (if id in doc then Some(doc[id] - NavList.HeaderHeight) else None)
            && !r.next.lock.isOpen && r.next.lock.overflow == MenuLock.Unset
            && r.preventDefault
  {
    var item := NavList.NavItems(c.currentPage)[i];
    var p := MenuProps(c);
    var ev := MobileMenu.LinkClick(i);
    NavList.EntryTargetsItsSection(doc, c.currentPage, i);
    assert p.navItems[i] == item;
    var o := MobileMenu.Dispatch(p, c.swipe, ev);
    assert o == MobileMenu.Output(c.swipe, [Navigate(item.href), RequestClose], true, None);
    PerformNavigate(c, doc, item.href);
    var closed := c.(lock := MenuLock.CloseMenu(c.lock));
    assert Step(c, doc, Menu(ev)) == Reply(closed, NavList.ScrollTarget(doc, item.href), true, None);
  }

  /** Opening the menu locks the body, attaches fresh swipe listeners and
      focuses the first link; pressing the button again closes and unlocks. */
  lemma MenuButtonToggles(c: Controller, doc: map<string, int>)
    requires Valid(c) && c.lock.mounted
    ensures var r := Step(c, doc, MenuButton);
            && r.next.lock.isOpen == !c.lock.isOpen
            && (r.next.lock.overflow == MenuLock.Hidden <==> r.next.lock.isOpen)
            && (r.next.lock.isOpen ==> r.next.swipe == SwipeGesture.Fresh && r.moveFocus == Some(1))
  {
  }

  /** The menu and the desktop list mark the same entry as current. */
  lemma MenuAgreesWithDesktop(c: Controller, i: nat)
    requires i < 6
    ensures var item := NavList.NavItems(c.currentPage)[i];
            MobileMenu.LinkAriaCurrent(MenuProps(c), item) == NavItemEvents.AriaCurrent(item)
  {
  }
}

=== FILE: nav_item.dfy ===
/** A single desktop navigation link: which events report its anchor to the
    parent, and when the browser's own navigation is suppressed. */
module NavItemEvents {
  import opened NavTypes

  /** What one event does: whether the default is suppressed, and the
      arguments the `onClick` callback was called with, in order. */
  datatype Reaction = Reaction(preventDefault: bool, calls: seq<string>)

  /** `handleClick`. `hasHandler` says whether an `onClick` callback was given. */
  function OnClick(item: NavItem, hasHandler: bool): (r: Reaction)
    ensures r.preventDefault
    ensures |r.calls| == (if hasHandler then 1 else 0)
    ensures forall k :: 0 <= k < |r.calls| ==> r.calls[k] == item.href
  {
    Reaction(true, if hasHandler then [item.href] else [])
  }

  /** The keys that activate the link like a button. */
  predicate ActivationKey(key: string) {
    key == "Enter" || key == " "
  }

  /** `handleKeyDown`: an activation key behaves exactly like a click; any
      other key is left entirely to the browser. */
  function OnKeyDown(item: NavItem, hasHandler: bool, key: string): (r: Reaction)
    ensures r.preventDefault <==> ActivationKey(key)
    ensures ActivationKey(key) ==> r == OnClick(item, hasHandler)
    ensures !ActivationKey(key) ==> r.calls == []
  {
    if ActivationKey(key) then Reaction(true, if hasHandler then [item.href] else [])
    else Reaction(false, [])
  }

  /** The `aria-current` attribute: 'page' exactly when the active style is
      applied, absent otherwise. */
  function AriaCurrent(item: NavItem): (r: Option<string>)
    ensures r.Some? <==> item.Active()
    ensures r.Some? ==> r.value == "page"
  {
    if item.isActive == Some(true) then Some("page") else None
  }

  /** An entry without an `isActive` flag is rendered as inactive. */
  lemma UndefinedIsInactive(item: NavItem)
    requires item.isActive.None?
    ensures !item.Active() && AriaCurrent(item).None?
  {
  }
}

=== FILE: nav_list.dfy ===
/** The fixed navigation list NavBar builds on every render, the anchor
    lookup behind `handleNavItemClick`, and the header's class list. */
module NavList {
  import opened NavTypes

  /** The six section ids, in menu order. */
  const SectionIds: seq<string> := ["our-story", "wedding-details", "rsvp", "photos", "wedding-party", "registry"]

  /** Their display labels, in the same order. */
  const Captions: seq<string> := ["Our Story", "Wedding Details", "RSVP", "Photos", "Wedding Party", "Registry"]

  /** Height of the fixed header, subtracted from a section's offset. */
  const HeaderHeight: int := 80

  function Entry(id: string, caption: string, currentPage: string): NavItem {
    NavItem(id, caption, "#" + id, Some(currentPage == id))
  }

  /** The list for a given current page. */
  function NavItems(currentPage: string): (r: seq<NavItem>)
    ensures |r| == 6
    ensures forall i :: 0 <= i < |r| ==> r[i].id == SectionIds[i] && r[i].href == "#" + r[i].id
    ensures forall i :: 0 <= i < |r| ==> r[i].isActive.Some?
    ensures forall i :: 0 <= i < |r| ==> (r[i].Active() <==> r[i].id == currentPage)
  {
    seq(6, i requires 0 <= i < 6 => Entry(SectionIds[i], Captions[i], currentPage))
  }

  predicate DistinctIds(items: seq<NavItem>) {
    forall i, j :: 0 <= i < j < |items| ==> items[i].id != items[j].id
  }

  function IdsOf(items: seq<NavItem>): (r: seq<string>)
    ensures |r| == |items|
    ensures forall i :: 0 <= i < |items| ==> r[i] == items[i].id
  {
    seq(|items|, i requires 0 <= i < |items| => items[i].id)
  }

  /** How many entries are styled active. */
  function CountActive(items: seq<NavItem>): nat
    decreases |items|
  {
    if |items| == 0 then 0
    else CountActive(items[..|items| - 1]) + (if items[|items| - 1].Active() then 1 else 0)
  }

  /** The six section ids are non-empty and pairwise distinct: their
      lengths already differ. */
  lemma SectionIdsDistinct()
    ensures forall i :: 0 <= i < |SectionIds| ==> SectionIds[i] != ""
    ensures forall i, j :: 0 <= i < j < |SectionIds| ==> SectionIds[i] != SectionIds[j]
  {
    var lengths := [9, 15, 4, 6, 13, 8];
    assert forall i :: 0 <= i < |SectionIds| ==> |SectionIds[i]| == lengths[i];
  }

  /** The ids NavBar uses are pairwise distinct, and are the section ids. */
  lemma NavItemsDistinct(currentPage: string)
    ensures DistinctIds(NavItems(currentPage))
    ensures IdsOf(NavItems(currentPage)) == SectionIds
  {
    SectionIdsDistinct();
    var r := NavItems(currentPage);
    assert IdsOf(r) == SectionIds;
  }

  /** In a list with distinct ids whose flags are "id equals the current
      page", exactly one entry is active if the page is one of the ids, and
      none otherwise. */
  lemma {:induction false} CountMatching(items: seq<NavItem>, currentPage: string)
    requires DistinctIds(items)
    requires forall i :: 0 <= i < |items| ==> (items[i].Active() <==> items[i].id == currentPage)
    ensures CountActive(items) == if currentPage in IdsOf(items) then 1 else 0
    decreases |items|
  {
    if |items| > 0 {
      var n := |items| - 1;
      var pre := items[..n];
      CountMatching(pre, currentPage);
      assert IdsOf(items) == IdsOf(pre) + [items[n].id];
      if items[n].id == currentPage {
        assert currentPage !in IdsOf(pre);
      }
    }
  }

  /** Exactly the entry whose id is the current page is active, and never
      more than one. */
  lemma ActiveEntries(currentPage: string)
    ensures CountActive(NavItems(currentPage)) == if currentPage in SectionIds then 1 else 0
    ensures forall i, j :: 0 <= i < j < 6 ==> !(NavItems(currentPage)[i].Active() && NavItems(currentPage)[j].Active())
  {
    NavItemsDistinct(currentPage);
    CountMatching(NavItems(currentPage), currentPage);
  }

  /** The empty page and 'home' (the page the site passes) make no entry active. */
  lemma HomeActivatesNone()
    ensures CountActive(NavItems("")) == 0 && CountActive(NavItems("home")) == 0
  {
    ActiveEntries("");
    ActiveEntries("home");
    forall i | 0 <= i < |SectionIds|
      ensures SectionIds[i] != "" && SectionIds[i] != "home"
    {
      assert |SectionIds[i]| > 0 && (|SectionIds[i]| != 4 || SectionIds[i][0] != 'h');
    }
  }

  /** Index of the first '#' in s, or |s| when there is none. */
  function FirstHash(s: string): nat
    decreases |s|
  {
    if |s| == 0 || s[0] == '#' then 0 else 1 + FirstHash(s[1..])
  }

  /** `href.replace('#', '')`: with a string pattern JavaScript replaces the
      FIRST occurrence only, wherever it is. */
  function RemoveFirstHash(s: string): (r: string)
    ensures |r| == (if '#' in s then |s| - 1 else |s|)
    ensures '#' !in s ==> r == s
    decreases |s|
  {
    if |s| == 0 then s
    else if s[0] == '#' then s[1..]
    else [s[0]] + RemoveFirstHash(s[1..])
  }

  /** FirstHash finds the first '#': none occurs before it, and it is one
      unless it is the length. */
  lemma {:induction false} FirstHashSpec(s: string)
    ensures FirstHash(s) <= |s|
    ensures '#' !in s[..FirstHash(s)]
    ensures FirstHash(s) < |s| ==> s[FirstHash(s)] == '#'
    decreases |s|
  {
    if |s| > 0 && s[0] != '#' {
      var t := s[1..];
      FirstHashSpec(t);
      assert s[..FirstHash(s)] == [s[0]] + t[..FirstHash(t)];
    }
  }

  /** Removing the first '#' cuts exactly that character out and keeps
      everything around it; a string without '#' is unchanged. */
  lemma {:induction false} RemoveFirstHashSplits(s: string)
    ensures FirstHash(s) == |s| ==> RemoveFirstHash(s) == s
    ensures FirstHash(s) < |s| ==> RemoveFirstHash(s) == s[..FirstHash(s)] + s[FirstHash(s) + 1..]
    decreases |s|
  {
    if |s| > 0 && s[0] != '#' {
      var t := s[1..];
      RemoveFirstHashSplits(t);
      FirstHashSpec(t);
      var k := FirstHash(t);
      assert s == [s[0]] + t;
      if k < |t| {
        assert s[..k + 1] + s[k + 2..] == [s[0]] + (t[..k] + t[k + 1..]);
      }
    } else if |s| > 0 {
      assert s[..0] == [];
    }
  }

  /** The string has no '#' exactly when the first-hash index is its length. */
  lemma FirstHashAbsent(s: string)
    ensures FirstHash(s) == |s| <==> '#' !in s
  {
    FirstHashSpec(s);
    assert s[..|s|] == s;
  }

  /** Stripping an anchor href gives back its id. */
  lemma AnchorRoundTrip(id: string)
    ensures RemoveFirstHash("#" + id) == id
  {
    assert ("#" + id)[1..] == id;
  }

  /** `document.getElementById`: the document is a map from element id to the
      element's offsetTop; the empty id never names an element. */
  function GetElementById(doc: map<string, int>, id: string): (r: Option<int>)
    ensures r.Some? <==> id != "" && id in doc
    ensures r.Some? ==> r.value == doc[id]
  {
    if id != "" && id in doc then Some(doc[id]) else None
  }

  /** The position `handleNavItemClick` scrolls to, or None when it does nothing. */
  function ScrollTarget(doc: map<string, int>, href: string): (r: Option<int>)
    ensures r.None? <==> GetElementById(doc, RemoveFirstHash(href)).None?
    ensures r.Some? ==> r.value + HeaderHeight == doc[RemoveFirstHash(href)]
  {
    match GetElementById(doc, RemoveFirstHash(href))
    case Some(offsetTop) => Some(offsetTop - HeaderHeight)
    case None => None
  }

  /** Every entry scrolls to its own section, placed 80 pixels below the top,
      and does nothing when the page has no such section. */
  lemma EntryTargetsItsSection(doc: map<string, int>, currentPage: string, i: nat)
    requires i < 6
    ensures var id := SectionIds[i];
            ScrollTarget(doc, NavItems(currentPage)[i].href) ==
              (if id in doc then Some(doc[id] - HeaderHeight) else None)
  {
    var id := SectionIds[i];
    var href := NavItems(currentPage)[i].href;
    SectionIdsDistinct();
    assert id != "";
    assert href == "#" + id;
    AnchorRoundTrip(id);
    assert GetElementById(doc, RemoveFirstHash(href)) == (if id in doc then Some(doc[id]) else None);
  }

  /** Stand-ins for the CSS-module class names of the header's states. */
  const NavbarClass: string := "navbar"
  const ScrolledClass: string := "navbarScrolled"
  const HiddenClass: string := "navbarHidden"
  const LoadedClass: string := "navbarLoaded"

  /** `filter(Boolean)` over strings: drops the empty ones, keeps the order. */
  function KeepNonEmpty(xs: seq<string>): (r: seq<string>)
    ensures forall c :: c in r <==> c in xs && c != ""
    ensures |r| <= |xs|
    ensures "" !in xs ==> r == xs
    ensures |xs| > 0 && xs[0] != "" ==> |r| > 0 && r[0] == xs[0]
    decreases |xs|
  {
    if |xs| == 0 then []
    else
      var rest := KeepNonEmpty(xs[..|xs| - 1]);
      assert xs == xs[..|xs| - 1] + [xs[|xs| - 1]];
      if xs[|xs| - 1] == "" then rest else rest + [xs[|xs| - 1]]
  }

  /** The header's class list before joining. */
  function NavBarClasses(isScrolled: bool, isVisible: bool, hasLoaded: bool, className: string): (r: seq<string>)
    ensures 1 <= |r| <= 5 && r[0] == NavbarClass
    ensures "" !in r
  {
    KeepNonEmpty([ NavbarClass,
                   if isScrolled then ScrolledClass else "",
                   if !isVisible then HiddenClass else "",
                   if hasLoaded then LoadedClass else "",
                   className ])
  }

  /** Each state class is present iff its state holds (or the caller's own
      class happens to carry the same name); no empty class survives. */
  lemma ClassesReflectState(isScrolled: bool, isVisible: bool, hasLoaded: bool, className: string)
    ensures var r := NavBarClasses(isScrolled, isVisible, hasLoaded, className);
            && NavbarClass in r
            && "" !in r
            && (ScrolledClass in r <==> isScrolled || className == ScrolledClass)
            && (HiddenClass in r <==> !isVisible || className == HiddenClass)
            && (LoadedClass in r <==> hasLoaded || className == LoadedClass)
            && (className in r <==> className != "")
  {
  }
}

=== FILE: nav_types.dfy ===
/** Shapes shared by the navigation components: the records of
    src/components/NavBar/types.ts, plus the intents a child hands to its parent. */
module NavTypes {

  /** An optional value; JavaScript's `undefined` is `None`. */
  datatype Option<+T> = None | Some(value: T)

  /** One navigation entry (`caption` is the source's `label`, a Dafny keyword). `isActive` is optional in the source, so an
      entry may carry no flag at all. */
  datatype NavItem = NavItem(id: string, caption: string, href: string, isActive: Option<bool>) {

    /** The entry is styled as the current page only when the flag is present and true. */
    predicate Active() {
      isActive == Some(true)
    }
  }

  /** Direction of the last scroll step. */
  datatype Direction = Up | Down

  /** The header's scroll-derived state. */
  datatype ScrollState = ScrollState(isScrolled: bool, scrollDirection: Direction, lastScrollY: int)

  /** What a child component asks of its parent: scroll to an anchor, or close the menu. */
  datatype Intent = Navigate(href: string) | RequestClose
}

=== FILE: scroll_header.dfy ===
/** The scroll-reactive header of NavBar: one run of `handleScroll`, and runs
    of it over a sequence of scroll offsets. */
module ScrollHeader {
  import opened NavTypes

  /** Offsets strictly above this style the header as scrolled. */
  const ScrolledThreshold: int := 50
  /** A step of at most this many pixels leaves visibility alone. */
  const DeadZone: int := 10
  /** Offsets strictly below this keep the header shown whatever the direction. */
  const TopZone: int := 100

  /** The scroll state together with the separate visibility flag. */
  datatype Header = Header(scroll: ScrollState, isVisible: bool)

  /** The state at mount: not scrolled, direction up, offset 0, visible. */
  const Initial: Header := Header(ScrollState(false, Up, 0), true)

  function Abs(x: int): nat {
    if x < 0 then -x else x
  }

  /** One run of the scroll handler with `window.scrollY == y`. */
  function HandleScroll(h: Header, y: int): (r: Header)
    ensures r.scroll.lastScrollY == y
    ensures r.scroll.isScrolled <==> y > 50
    ensures r.scroll.scrollDirection == Down <==> y > h.scroll.lastScrollY
    ensures Abs(y - h.scroll.lastScrollY) <= 10 ==> r.isVisible == h.isVisible
    ensures Abs(y - h.scroll.lastScrollY) > 10 ==>
              (r.isVisible <==> y < h.scroll.lastScrollY || y < 100)
  {
    var last := h.scroll.lastScrollY;
    var direction := if y > last then Down else Up;
    var visible := if Abs(y - last) > DeadZone then direction == Up || y < TopZone else h.isVisible;
    Header(ScrollState(y > ScrolledThreshold, direction, y), visible)
  }

  /** The boundary cases of the three thresholds. */
  lemma Boundaries(h: Header)
    ensures !HandleScroll(h, 50).scroll.isScrolled && HandleScroll(h, 51).scroll.isScrolled
    ensures HandleScroll(h, h.scroll.lastScrollY).scroll.scrollDirection == Up
    ensures HandleScroll(h, h.scroll.lastScrollY + 10).isVisible == h.isVisible
    ensures HandleScroll(h, h.scroll.lastScrollY - 10).isVisible == h.isVisible
    ensures h.scroll.lastScrollY + 11 >= 100 ==> !HandleScroll(h, h.scroll.lastScrollY + 11).isVisible
    ensures HandleScroll(h, h.scroll.lastScrollY - 11).isVisible
  {
  }

  /** The handler run once per offset, in order. */
  function Run(h: Header, ys: seq<int>): (r: Header)
    ensures |ys| == 0 ==> r == h
    ensures |ys| > 0 ==> r.scroll.lastScrollY == ys[|ys| - 1]
    ensures |ys| > 0 ==> (r.scroll.isScrolled <==> ys[|ys| - 1] > ScrolledThreshold)
    decreases |ys|
  {
    if |ys| == 0 then h else HandleScroll(Run(h, ys[..|ys| - 1]), ys[|ys| - 1])
  }

  /** The offset the i-th step of a run compares against. */
  function Prev(h: Header, ys: seq<int>, i: int): int
    requires 0 <= i < |ys|
  {
    if i == 0 then h.scroll.lastScrollY else ys[i - 1]
  }

  /** The i-th step of a run leaves the dead zone. */
  predicate Jumps(h: Header, ys: seq<int>, i: int)
    requires 0 <= i < |ys|
  {
    Abs(ys[i] - Prev(h, ys, i)) > DeadZone
  }

  /** No step after index i leaves the dead zone. */
  predicate QuietAfter(h: Header, ys: seq<int>, i: int) {
    forall j :: i < j < |ys| && 0 <= j ==> !Jumps(h, ys, j)
  }

  lemma PrefixSteps(h: Header, ys: seq<int>, n: nat)
    requires n <= |ys|
    ensures forall i :: 0 <= i < n ==> Prev(h, ys[..n], i) == Prev(h, ys, i)
    ensures forall i :: 0 <= i < n ==> (Jumps(h, ys[..n], i) <==> Jumps(h, ys, i))
  {
  }

  /** With no step leaving the dead zone, a run keeps the visibility it started with. */
  lemma {:induction false} RunVisibilityQuiet(h: Header, ys: seq<int>)
    requires QuietAfter(h, ys, -1)
    ensures Run(h, ys).isVisible == h.isVisible
    decreases |ys|
  {
    if |ys| > 0 {
      var n := |ys| - 1;
      var pre := ys[..n];
      PrefixSteps(h, ys, n);
      assert !Jumps(h, ys, n);
      assert QuietAfter(h, pre, -1);
      RunVisibilityQuiet(h, pre);
      assert Run(h, pre).scroll.lastScrollY == Prev(h, ys, n);
    }
  }

  /** Visibility after a run is decided by the LAST step that left the dead
      zone: shown iff that step went up or ended below the top zone's edge. */
  lemma {:induction false} RunVisibilityAt(h: Header, ys: seq<int>, i: nat)
    requires i < |ys| && Jumps(h, ys, i) && QuietAfter(h, ys, i)
    ensures Run(h, ys).isVisible <==> ys[i] < Prev(h, ys, i) || ys[i] < TopZone
    decreases |ys|
  {
    var n := |ys| - 1;
    var pre := ys[..n];
    assert Run(h, pre).scroll.lastScrollY == Prev(h, ys, n);
    if i < n {
      PrefixSteps(h, ys, n);
      assert !Jumps(h, ys, n);
      assert Jumps(h, pre, i) && QuietAfter(h, pre, i);
      RunVisibilityAt(h, pre, i);
    }
  }

  /** Scrolling down steadily, more than the dead zone at each step, hides
      the header exactly once the offset reaches the top zone's edge. */
  lemma ClimbHides(h: Header, ys: seq<int>)
    requires |ys| > 0
    requires forall i :: 0 <= i < |ys| ==> ys[i] > Prev(h, ys, i) + DeadZone
    ensures Run(h, ys).scroll.scrollDirection == Down
    ensures Run(h, ys).isVisible <==> ys[|ys| - 1] < TopZone
  {
    var n := |ys| - 1;
    assert Jumps(h, ys, n) && QuietAfter(h, ys, n);
    RunVisibilityAt(h, ys, n);
    assert Run(h, ys) == HandleScroll(Run(h, ys[..n]), ys[n]);
    if n > 0 {
      assert Run(h, ys[..n]).scroll.lastScrollY == ys[n - 1];
    }
  }

  /** A single step up by more than the dead zone shows the header at any offset. */
  lemma ReversalShows(h: Header, ys: seq<int>)
    requires |ys| > 0
    requires ys[|ys| - 1] < Prev(h, ys, |ys| - 1) - DeadZone
    ensures Run(h, ys).scroll.scrollDirection == Up
    ensures Run(h, ys).isVisible
  {
    var n := |ys| - 1;
    assert Run(h, ys) == HandleScroll(Run(h, ys[..n]), ys[n]);
    if n > 0 {
      assert Run(h, ys[..n]).scroll.lastScrollY == ys[n - 1];
    }
  }

  /** A creep of n steps of exactly ten pixels downwards from the stored offset. */
  function Creep(y0: int, n: nat): (ys: seq<int>)
    ensures |ys| == n
    ensures forall i :: 0 <= i < n ==> ys[i] == y0 + DeadZone * (i + 1)
  {
    seq(n, i requires 0 <= i < n => y0 + DeadZone * (i + 1))
  }

  /** Because the last offset is stored even inside the dead zone, scrolling
      down in steps of ten pixels never changes visibility, however far the
      page moves in total: after n steps the page is 10n pixels further down
      and the header is shown or hidden exactly as before. */
  lemma CreepKeepsVisibility(h: Header, n: nat)
    ensures var r := Run(h, Creep(h.scroll.lastScrollY, n));
            && r.scroll.lastScrollY == h.scroll.lastScrollY + DeadZone * n
            && r.isVisible == h.isVisible
  {
    var ys := Creep(h.scroll.lastScrollY, n);
    forall j | 0 <= j < |ys|
      ensures !Jumps(h, ys, j)
    {
      assert ys[j] - Prev(h, ys, j) == DeadZone;
    }
    RunVisibilityQuiet(h, ys);
  }
}

=== FILE: swipe.dfy ===
/** The swipe-to-close handlers MobileMenu attaches to the menu panel while
    open. `startX` and `currentX` live for as long as the listeners do: a
    touchstart sets only `startX`, a touchmove only `currentX`, and neither
    is reset between gestures. */
module SwipeGesture {

  /** A net rightward movement strictly above this closes the menu. */
  const CloseDistance: int := 100

  datatype Swipe = Swipe(startX: int, currentX: int)

  /** Both coordinates start at 0 when the listeners are attached. */
  const Fresh: Swipe := Swipe(0, 0)

  datatype Touch = TouchStart(x: int) | TouchMove(x: int) | TouchEnd

  /** The state after one touch event, and whether it asked to close. */
  datatype Step = Step(state: Swipe, close: bool)

  function OnTouch(s: Swipe, t: Touch): (r: Step)
    ensures r.close ==> t.TouchEnd?
    ensures r.state.startX != s.startX ==> t.TouchStart?
    ensures r.state.currentX != s.currentX ==> t.TouchMove?
    ensures t.TouchStart? ==> r.state.startX == t.x
    ensures t.TouchMove? ==> r.state.currentX == t.x
    ensures t.TouchEnd? ==> (r.close <==> s.currentX > s.startX + CloseDistance)
  {
    match t
    case TouchStart(x) => Step(s.(startX := x), false)
    case TouchMove(x) => Step(s.(currentX := x), false)
    case TouchEnd => Step(s, s.currentX - s.startX > CloseDistance)
  }

  /** The state after a sequence of touch events. */
  function Replay(s: Swipe, ts: seq<Touch>): Swipe
    decreases |ts|
  {
    if |ts| == 0 then s else OnTouch(Replay(s, ts[..|ts| - 1]), ts[|ts| - 1]).state
  }

  /** Whether a touchend after the given events closes the menu. */
  predicate EndCloses(s: Swipe, ts: seq<Touch>) {
    OnTouch(Replay(s, ts), TouchEnd).close
  }

  predicate NoMoveAfter(ts: seq<Touch>, i: int) {
    forall j :: i < j < |ts| && 0 <= j ==> !ts[j].TouchMove?
  }

  predicate NoStartAfter(ts: seq<Touch>, i: int) {
    forall j :: i < j < |ts| && 0 <= j ==> !ts[j].TouchStart?
  }

  /** `currentX` is the coordinate of the last touchmove, or the starting
      value if there was none. */
  lemma {:induction false} ReplayTracksLastMove(s: Swipe, ts: seq<Touch>)
    ensures NoMoveAfter(ts, -1) ==> Replay(s, ts).currentX == s.currentX
    ensures forall i :: 0 <= i < |ts| && ts[i].TouchMove? && NoMoveAfter(ts, i) ==>
              Replay(s, ts).currentX == ts[i].x
    decreases |ts|
  {
    if |ts| > 0 {
      var n := |ts| - 1;
      var pre := ts[..n];
      ReplayTracksLastMove(s, pre);
      assert Replay(s, ts) == OnTouch(Replay(s, pre), ts[n]).state;
      assert forall i :: -1 <= i < n && NoMoveAfter(ts, i) ==> NoMoveAfter(pre, i);
    }
  }

  /** `startX` is the coordinate of the last touchstart, or the starting
      value if there was none. */
  lemma {:induction false} ReplayTracksLastStart(s: Swipe, ts: seq<Touch>)
    ensures NoStartAfter(ts, -1) ==> Replay(s, ts).startX == s.startX
    ensures forall i :: 0 <= i < |ts| && ts[i].TouchStart? && NoStartAfter(ts, i) ==>
              Replay(s, ts).startX == ts[i].x
    decreases |ts|
  {
    if |ts| > 0 {
      var n := |ts| - 1;
      var pre := ts[..n];
      ReplayTracksLastStart(s, pre);
      assert Replay(s, ts) == OnTouch(Replay(s, pre), ts[n]).state;
      assert forall i :: -1 <= i < n && NoStartAfter(ts, i) ==> NoStartAfter(pre, i);
    }
  }

  /** A gesture's outcome depends only on its own start and the last move
      seen by the listeners, however old. */
  lemma MovelessGestureReusesCurrentX(s: Swipe, a: int)
    ensures EndCloses(s, [TouchStart(a)]) <==> s.currentX > a + CloseDistance
  {
    assert [TouchStart(a)][..0] == [];
    assert Replay(s, [TouchStart(a)]) == s.(startX := a);
  }

  /** On a fresh listener a gesture without a move never closes when it starts
      at a non-negative coordinate. */
  lemma FirstTapNeverCloses(a: int)
    requires a >= 0
    ensures !EndCloses(Fresh, [TouchStart(a)])
  {
    MovelessGestureReusesCurrentX(Fresh, a);
  }

  /** A net movement of exactly 100 does not close; 101 does. */
  lemma CloseBoundary(s: Swipe, a: int)
    ensures !EndCloses(s, [TouchStart(a), TouchMove(a + 100)])
    ensures EndCloses(s, [TouchStart(a), TouchMove(a + 101)])
  {
    var t0 := [TouchStart(a), TouchMove(a + 100)];
    var t1 := [TouchStart(a), TouchMove(a + 101)];
    MovelessGestureReusesCurrentX(s, a);
    assert t0[..1] == [TouchStart(a)] && t1[..1] == [TouchStart(a)];
    assert Replay(s, t0) == Swipe(a, a + 100);
    assert Replay(s, t1) == Swipe(a, a + 101);
  }

  /** After a short swipe that did not close (300 to 350), a tap at 200
      without any move closes the menu, since the stale currentX of 350 is
      150 to the right of the new start. */
  lemma TapAfterShortSwipeCloses()
    ensures !EndCloses(Fresh, [TouchStart(300), TouchMove(350)])
    ensures EndCloses(Fresh, [TouchStart(300), TouchMove(350), TouchEnd, TouchStart(200)])
  {
    var ts := [TouchStart(300), TouchMove(350), TouchEnd, TouchStart(200)];
    ReplayTracksLastMove(Fresh, ts);
    ReplayTracksLastStart(Fresh, ts);
    assert ts[1].TouchMove? && NoMoveAfter(ts, 1);
    assert ts[3].TouchStart? && NoStartAfter(ts, 3);
    var us := [TouchStart(300), TouchMove(350)];
    ReplayTracksLastMove(Fresh, us);
    ReplayTracksLastStart(Fresh, us);
    assert us[1].TouchMove? && NoMoveAfter(us, 1);
    assert us[0].TouchStart? && NoStartAfter(us, 0);
  }
}
